=== FILE: README.md ===
# Scalafix instance fetching: version resolution and version lookup

This project models the front half of `Scalafix.fetchAndClassloadInstance`, the static
factory a build tool or IDE calls to obtain a Scalafix implementation for a given Scala
version. Before anything is downloaded or classloaded the factory:

1. maps the requested Scala version to one of four keys (`scala212`, `scala213`,
   `scala3LTS`, `scala3Next`) by a first-match-wins chain of literal `startsWith` tests,
   and refuses any other string with an `IllegalArgumentException`;
2. loads the bundled `scalafix-interfaces.properties` table, failing with a
   `ScalafixException` if the resource is missing or unreadable, and with the
   `IllegalArgumentException` that `Properties.load` throws on a malformed `\uXXXX` escape
   (the catch clause does not name it);
3. reads the fixed `scalafixVersion` property and the property named by the key, failing
   with a `ScalafixException` if either is absent;
4. hands the repositories and the two pinned versions to artifact fetching.

Modules:

- `Wrappers` — `Option` (a Java reference that may be `null`) and `Result` (a value or the
  exception that replaced it).
- `JavaString` — `String.startsWith` as a predicate and as a position-by-position scan,
  proved equal, and `String.contains` (`Contains`) for stating what messages name. Strings
  are sequences of Unicode scalar values.
- `Errors` — the names of the resource and its fixed property, the four failures, the
  exception class each is thrown as and its message.
- `ScalaVersion` — the `Key` buckets, the property name of each key and the resolver.
- `FetchPipeline` — `Properties.getProperty` (`GetProperty`: an absent key gives `null`) and
  the whole sequence as one pure function returning the outcome (the
  fetch request or the failure) together with a trace of the steps reached
  (`ReadProperties`, `LookupVersions`, `FetchArtifacts`), so that fail-fast ordering can be
  stated.

What loading the resource yields is a parameter of type `Resource`: `Loaded(props)` with the
parsed table; `Unreadable` for a `null` stream, which makes `Properties.load` throw
`NullPointerException`, and for an `IOException`, both caught and rethrown as
`ScalafixException`; and `Malformed` for a malformed `\uXXXX` escape, whose
`IllegalArgumentException` escapes the call. The default repository list of the
one-argument overload is also a parameter. Repositories are a type parameter, passed
through untouched.

Behaviour worth noting:

- The same "Failed to lookup versions" message is thrown whichever of the two properties
  is missing.
- An unsupported version is thrown as the unchecked `IllegalArgumentException`, while a
  missing resource and a missing version are the checked `ScalafixException`.
- The resolver is a literal first-match chain, so "3.10.0" lands in the LTS bucket (it
  starts with "3.1") and "30" in the Next bucket.

## Model

| member | source | states |
|---|---|---|
| JavaString.StartsWithScan | scalafix-interfaces/src/main/java/scalafix/interfaces/Scalafix.java:124-133 | The position-by-position scan answers true exactly when the prefix is no longer than the string and agrees with it at every position, which is the `startsWith` relation the resolver's tests use |
| ScalaVersion.KeyName | scalafix-interfaces/src/main/java/scalafix/interfaces/Scalafix.java:125-134 | No key's property name is the fixed `scalafixVersion` property, so the two lookups read different properties |
| ScalaVersion.KeyNameInjective | scalafix-interfaces/src/main/java/scalafix/interfaces/Scalafix.java:123-134 | Distinct keys read distinct properties |
| ScalaVersion.Resolve | scalafix-interfaces/src/main/java/scalafix/interfaces/Scalafix.java:123-137 | A version resolves exactly when it starts with "2.12", "2.13" or "3"; a refusal carries the requested string unchanged; a string with an LTS prefix never lands in the Next bucket |
| ScalaVersion.ResolveByCharacters | scalafix-interfaces/src/main/java/scalafix/interfaces/Scalafix.java:124-136 | Each of the four buckets and the refusal corresponds, in both directions, to one shape of leading characters: "2.12", "2.13", "3." followed by 0-3, "3" not followed by ".0"-".3", and everything else including the empty string |
| ScalaVersion.ResolveExamples | scalafix-interfaces/src/main/java/scalafix/interfaces/Scalafix.java:124-136 | "3.10.0" is LTS and "30" is Next because the tests are literal prefixes; "2.11" and "" are refused with themselves as the offending string |
| Errors.Thrown | scalafix-interfaces/src/main/java/scalafix/interfaces/Scalafix.java:136-151 | An `IllegalArgumentException` is exactly an unsupported version or a malformed resource; an unreadable resource and a missing version are `ScalafixException` |
| Errors.Message | scalafix-interfaces/src/main/java/scalafix/interfaces/Scalafix.java:136-151 | An unsupported version's message ends with the requested string, and only that message starts with "Unsupported scala version "; it is exactly that prefix followed by the requested string; the unreadable-resource message starts with "Failed to load '" and the missing-version message with "Failed to lookup versions from '", and both name `scalafix-interfaces.properties`; the malformed-resource message is `Properties.load`'s "Malformed \uxxxx encoding." |
| Errors.MessageDistinguishes | scalafix-interfaces/src/main/java/scalafix/interfaces/Scalafix.java:136-151 | Equal messages mean equal failures: the four failures, and unsupported versions among themselves, are told apart by message alone |
| FetchPipeline.FetchAndClassload | scalafix-interfaces/src/main/java/scalafix/interfaces/Scalafix.java:120-153 | Steps happen only in source order; fetching is in the trace exactly when the outcome is a fetch request; an unsupported version fails with nothing read and nothing fetched; a table is read exactly when the version is supported; an unreadable or malformed resource stops the call right after the read, as `LoadFailed` or `MalformedResource`; a fetch request carries the caller's repositories and the table's `scalafixVersion`. The two lookups go through `GetProperty`, which models `Properties.getProperty`: an absent key is `null`, and a present but empty value counts as present |
| FetchPipeline.FetchAndClassloadDefault | scalafix-interfaces/src/main/java/scalafix/interfaces/Scalafix.java:99-101 | The one-argument overload behaves as the two-argument call with the default repositories: its trace, its failure and its two pinned versions are those of the same request made with no repositories, and a fetch request carries the defaults |
| FetchPipeline.FetchExactlyWhenComplete | scalafix-interfaces/src/main/java/scalafix/interfaces/Scalafix.java:148-153 | Fetching is reached if and only if the version is supported, the table loaded and both pinned versions present, and then it receives exactly `scalafixVersion` and the value under the resolved key's property |
| FetchPipeline.MissingVersionStopsBeforeFetch | scalafix-interfaces/src/main/java/scalafix/interfaces/Scalafix.java:148-151 | A loaded table lacking either pinned version fails with `MissingVersion` after the lookup and before fetching |
| FetchPipeline.FailurePhase | scalafix-interfaces/src/main/java/scalafix/interfaces/Scalafix.java:136-151 | Only a refused version fails before the resource is read; every `ScalafixException` comes after the read; an `IllegalArgumentException` is exactly a refused version or a malformed resource |
| FetchPipeline.OnlyTwoPropertiesMatter | scalafix-interfaces/src/main/java/scalafix/interfaces/Scalafix.java:148-153 | The run is determined by the request, the repositories and the two pinned-version properties: tables agreeing on those give the same run |
| FetchPipeline.EndToEndExamples | scalafix-interfaces/src/main/java/scalafix/interfaces/Scalafix.java:120-153 | "3.3.4" with a full table reaches fetching with ("0.12.0", "3.3.4"); "2.11" is refused with an empty trace whatever the table |

## Left out

- Artifact fetching (`ScalafixCoursier.scalafixCliJars`, line 153): network and file-system I/O in a class that is not part of this model; it is the opaque final step `FetchArtifacts`, whose input is the `Fetch` outcome.
- Classloader construction (`ScalafixInterfacesClassloader`, `URLClassLoader`, lines 154-155): JVM loader hierarchy. The invariant it keeps is that the implementation's loader has the interface-only loader as parent, so types crossing the `Scalafix` interface resolve to the same class on both sides.
- `classloadInstance` (lines 178-190): reflective `loadClass` / `getDeclaredConstructor` / `newInstance`, whose only logic is wrapping the five checked reflective exceptions of lines 184-186 in one `ScalafixException`.
- The abstract accessors `newArguments` through `scala3Next` (lines 29-81): declarations with no behaviour in this file.
- FetchPipeline.FetchAndClassload: a `null` requested version, which throws `NullPointerException` at line 124, is not modelled; the requested version is always a string.
- JavaString.StartsWith: Java strings are modelled as sequences of Unicode scalar values, not of UTF-16 code units. Since UTF-16 is prefix-free, `startsWith` gives the same answer on every well-formed string. Strings holding a lone surrogate have no counterpart in the model.
- `Repository.defaults()` (line 100): a library default; the model takes it as the `defaults` parameter.
- The `.properties` text format read by `Properties.load`: the outcome of loading is given as a `Resource`. A table partly read before an `IOException` is the same `Unreadable` as a missing resource.
- Exception causes (the wrapped `IOException` or `NullPointerException`): the model keeps the failure kind and message, not the cause chain.

=== FILE: errors.dfy ===
/** The bundled version table's names, and the failures `fetchAndClassloadInstance` raises
    for a non-null requested version before any artifact is fetched. */
module Errors {
  import opened JavaString

  /** Name of the bundled resource holding the pinned versions. */
  const PropertiesPath: string := "scalafix-interfaces.properties"

  /** The fixed property holding the pinned Scalafix release. */
  const ScalafixVersionKey: string := "scalafixVersion"

  /** Why a request was refused. */
  datatype Error =
    | Unsupported(requested: string)  // the requested Scala version matches no known prefix
    | LoadFailed                      // the properties resource is missing or could not be read
    | MalformedResource               // `Properties.load` met a malformed `\uXXXX` escape
    | MissingVersion                  // the resource lacks the Scalafix version or the Scala version

  /** The Java exception class each failure is thrown as. */
  datatype ExceptionClass = IllegalArgumentException | ScalafixException

  /** Unsupported versions surface as an unchecked `IllegalArgumentException`, and so does
      a malformed escape, which `Properties.load` throws and the catch clause (naming only
      `IOException` and `NullPointerException`) lets through. A missing or unreadable
      resource and a missing version are the checked `ScalafixException`. */
  function Thrown(e: Error): (c: ExceptionClass)
    ensures c == IllegalArgumentException <==> (e.Unsupported? || e == MalformedResource)
    ensures c == ScalafixException <==> (e == LoadFailed || e == MissingVersion)
  {
    match e
    case Unsupported(_) => IllegalArgumentException
    case MalformedResource => IllegalArgumentException
    case LoadFailed => ScalafixException
    case MissingVersion => ScalafixException
  }

  const UnsupportedPrefix: string := "Unsupported scala version "

  /** The message `Properties.load` gives a malformed `\uXXXX` escape. */
  const MalformedEscapeMessage: string := "Malformed \\uxxxx encoding."

  /** The exception message of each failure. An unsupported version's message is the fixed
      prefix followed by exactly the requested string; both `ScalafixException` messages
      name the resource; a malformed escape carries the message `Properties.load` gives it. */
  function Message(e: Error): (m: string)
    ensures e.Unsupported? ==>
      && |m| == |UnsupportedPrefix| + |e.requested|
      && m[|m| - |e.requested|..] == e.requested
    ensures e.Unsupported? <==> StartsWith(m, UnsupportedPrefix)
    ensures e == LoadFailed ==> StartsWith(m, "Failed to load '") && Contains(m, PropertiesPath)
    ensures e == MissingVersion ==>
      StartsWith(m, "Failed to lookup versions from '") && Contains(m, PropertiesPath)
    ensures e == MalformedResource ==> m == MalformedEscapeMessage
  {
    match e
    case Unsupported(v) => UnsupportedPrefix + v
    case LoadFailed =>
      var m := "Failed to load '" + PropertiesPath + "' to lookup versions";
      assert m[0] != UnsupportedPrefix[0];
      assert StartsWith(m[16..], PropertiesPath);
      m
    case MalformedResource =>
      var m := MalformedEscapeMessage;
      assert m[0] != UnsupportedPrefix[0];
      m
    case MissingVersion =>
      var m := "Failed to lookup versions from '" + PropertiesPath + "'";
      assert m[0] != UnsupportedPrefix[0];
      assert StartsWith(m[32..], PropertiesPath);
      m
  }

  /** Every failure is told apart by its message alone, and an unsupported version's message
      gives back the exact string that was requested. */
  lemma MessageDistinguishes(e1: Error, e2: Error)
    requires Message(e1) == Message(e2)
    ensures e1 == e2
  {
  }
}

=== FILE: fetch_pipeline.dfy ===
/** The front half of `Scalafix.fetchAndClassloadInstance`: resolve the requested Scala
    version to a key, load the bundled version table, look up the two pinned versions and
    hand them, with the repositories, to artifact fetching. What loading the resource
    yields is a parameter; fetching is an opaque final step. */
module FetchPipeline {
  import opened Wrappers
  import opened Errors
  import opened ScalaVersion

  /** What `Properties.load` makes of the bundled resource: the table it parsed; nothing,
      because the stream is missing (`NullPointerException`) or reading it failed
      (`IOException`); or a rejection of a malformed `\uXXXX` escape
      (`IllegalArgumentException`). */
  datatype Resource = Loaded(props: map<string, string>) | Unreadable | Malformed

  /** The observable steps after version resolution, in the order the source takes them. */
  datatype Step = ReadProperties | LookupVersions | FetchArtifacts

  const AllSteps: seq<Step> := [ReadProperties, LookupVersions, FetchArtifacts]

  /** Either the request handed to artifact fetching, or the failure that ended the call.
      Repositories are opaque descriptors passed through untouched. */
  datatype Outcome<R> =
    | Fetch(repositories: seq<R>, scalafixVersion: string, scalaVersion: string)
    | Failed(error: Error)

  /** An outcome together with the steps reached on the way to it. */
  datatype Run<R> = Run(outcome: Outcome<R>, trace: seq<Step>)

  /** `Properties.getProperty`: the value, or `null` when the key is absent. A present but
      empty value is still a value. */
  function GetProperty(props: map<string, string>, key: string): Option<string> {
    if key in props then Some(props[key]) else None
  }

  /** `fetchAndClassloadInstance(requestedScalaVersion, repositories)` up to the call into
      artifact fetching. */
  function FetchAndClassload<R>(requested: string, repositories: seq<R>,
                                resource: Resource): (run: Run<R>)
    // steps are only ever taken in order, and fetching happens exactly when it is asked for
    ensures run.trace <= AllSteps
    ensures FetchArtifacts in run.trace <==> run.outcome.Fetch?
    // fail fast: an unsupported version reads nothing and fetches nothing
    ensures Resolve(requested).Err? ==> run == Run(Failed(Unsupported(requested)), [])
    ensures ReadProperties in run.trace <==> Resolve(requested).Ok?
    // a resource that could not be loaded ends the call right after the read
    ensures Resolve(requested).Ok? && resource == Unreadable ==>
      run == Run(Failed(LoadFailed), [ReadProperties])
    ensures Resolve(requested).Ok? && resource == Malformed ==>
      run == Run(Failed(MalformedResource), [ReadProperties])
    ensures run.outcome.Fetch? ==>
      && run.outcome.repositories == repositories
      && resource.Loaded?
      && ScalafixVersionKey in resource.props
      && run.outcome.scalafixVersion == resource.props[ScalafixVersionKey]
  {
    match Resolve(requested)
    case Err(e) => Run(Failed(e), [])
    case Ok(key) =>
      match resource
      case Unreadable => Run(Failed(LoadFailed), [ReadProperties])
      case Malformed => Run(Failed(MalformedResource), [ReadProperties])
      case Loaded(props) =>
        var scalafixVersion := GetProperty(props, ScalafixVersionKey);
        var scalaVersion := GetProperty(props, KeyName(key));
        if scalafixVersion.None? || scalaVersion.None? then
          Run(Failed(MissingVersion), [ReadProperties, LookupVersions])
        else
          Run(Fetch(repositories, scalafixVersion.value, scalaVersion.value), AllSteps)
  }

  /** `fetchAndClassloadInstance(requestedScalaVersion)`: the same call with the default
      repository list, which is a parameter here. Its run is the run made with no
      repositories, with the defaults put into the fetch request: the same trace, the same
      failure, the same pinned versions. */
  function FetchAndClassloadDefault<R>(requested: string, defaults: seq<R>,
                                       resource: Resource): (run: Run<R>)
    ensures run.outcome.Fetch? ==> run.outcome.repositories == defaults
    ensures var bare := FetchAndClassload<R>(requested, [], resource);
      && run.trace == bare.trace
      && run.outcome.Failed? == bare.outcome.Failed?
      && (run.outcome.Failed? ==> run.outcome == bare.outcome)
      && (run.outcome.Fetch? ==>
            && run.outcome.scalafixVersion == bare.outcome.scalafixVersion
            && run.outcome.scalaVersion == bare.outcome.scalaVersion)
  {
    FetchAndClassload(requested, defaults, resource)
  }

  /** Fetching is reached exactly when the version is supported, the table loaded and both
      pinned versions are present, and it is handed exactly those two values. */
  lemma FetchExactlyWhenComplete<R>(requested: string, repositories: seq<R>, resource: Resource)
    ensures FetchAndClassload(requested, repositories, resource).outcome.Fetch? <==>
      && Resolve(requested).Ok?
      && resource.Loaded?
      && ScalafixVersionKey in resource.props
      && KeyName(Resolve(requested).value) in resource.props
    ensures Resolve(requested).Ok? && resource.Loaded? ==>
      var props := resource.props;
      var name := KeyName(Resolve(requested).value);
      ScalafixVersionKey in props && name in props ==>
        FetchAndClassload(requested, repositories, resource)
          == Run(Fetch(repositories, props[ScalafixVersionKey], props[name]), AllSteps)
  {
  }

  /** A loaded table lacking either pinned version fails with `MissingVersion`, after the
      lookup and before any fetching; a present but empty value does not count as missing. */
  lemma MissingVersionStopsBeforeFetch<R>(requested: string, repositories: seq<R>,
                                          props: map<string, string>)
    requires Resolve(requested).Ok?
    requires ScalafixVersionKey !in props || KeyName(Resolve(requested).value) !in props
    ensures FetchAndClassload(requested, repositories, Loaded(props))
      == Run(Failed(MissingVersion), [ReadProperties, LookupVersions])
  {
  }

  /** Which phase a failure comes from. Only a refused version fails before the resource
      is read; every `ScalafixException` comes after the read; and an
      `IllegalArgumentException` is either a refused version or a malformed resource. */
  lemma FailurePhase<R>(requested: string, repositories: seq<R>, resource: Resource)
    requires FetchAndClassload(requested, repositories, resource).outcome.Failed?
    ensures var run := FetchAndClassload(requested, repositories, resource);
      && (run.outcome.error.Unsupported? <==> ReadProperties !in run.trace)
      && (Thrown(run.outcome.error) == ScalafixException ==> ReadProperties in run.trace)
      && (Thrown(run.outcome.error) == IllegalArgumentException <==>
            Resolve(requested).Err? || resource == Malformed)
  {
  }

  /** The table is consulted only through the two pinned-version properties: tables that
      agree on those give the same run, whatever else they hold. An unsupported version
      gives the same run whatever the table. */
  lemma OnlyTwoPropertiesMatter<R>(requested: string, repositories: seq<R>,
                                   p1: map<string, string>, p2: map<string, string>)
    requires Resolve(requested).Ok? ==>
      var name := KeyName(Resolve(requested).value);
      && GetProperty(p1, ScalafixVersionKey) == GetProperty(p2, ScalafixVersionKey)
      && GetProperty(p1, name) == GetProperty(p2, name)
    ensures FetchAndClassload(requested, repositories, Loaded(p1))
      == FetchAndClassload(requested, repositories, Loaded(p2))
  {
  }

  /** The two end-to-end scenarios: "3.3.4" reaches fetching with the LTS pin, and "2.11"
      is refused with nothing read. */
  lemma EndToEndExamples<R>(repositories: seq<R>)
    ensures var table := map[ScalafixVersionKey := "0.12.0", "scala212" := "2.12.20",
                              "scala213" := "2.13.15", "scala3LTS" := "3.3.4",
                              "scala3Next" := "3.5.0"];
      FetchAndClassload("3.3.4", repositories, Loaded(table))
        == Run(Fetch(repositories, "0.12.0", "3.3.4"), AllSteps)
    ensures forall resource: Resource ::
      FetchAndClassload("2.11", repositories, resource) == Run(Failed(Unsupported("2.11")), [])
  {
    ResolveExamples();
  }
}

=== FILE: java_string.dfy ===
/** The part of `java.lang.String` the version resolver relies on. A Java string is modelled
    as its sequence of Unicode scalar values rather than of UTF-16 code units; since UTF-16
    is prefix-free, `startsWith` gives the same answer either way on well-formed strings. */
module JavaString {

  /** `s.startsWith(p)`: `p` is no longer than `s` and `s` begins with `p`, scalar value for
      scalar value. */
  predicate StartsWith(s: string, p: string) {
    |p| <= |s| && s[..|p|] == p
  }

  /** The shape of the scan `String.startsWith(prefix, 0)` performs: reject a prefix longer
      than the receiver, then compare position by position and stop at the first mismatch.
      Here a position holds a scalar value, where the JDK compares UTF-16 code units. */
  method StartsWithScan(s: string, p: string) returns (b: bool)
    ensures b <==> |p| <= |s| && forall i :: 0 <= i < |p| ==> s[i] == p[i]
    ensures b <==> StartsWith(s, p)
  {
    if |p| > |s| {
      return false;
    }
    var i := 0;
    while i < |p|
      invariant 0 <= i <= |p|
      invariant forall j :: 0 <= j < i ==> s[j] == p[j]
    {
      if s[i] != p[i] {
        return false;
      }
      i := i + 1;
    }
    assert s[..|p|] == p;
    return true;
  }

  /** `s.contains(t)`: `t` occurs in `s` at some offset. */
  predicate Contains(s: string, t: string) {
    exists i :: 0 <= i <= |s| && StartsWith(s[i..], t)
  }
}

=== FILE: scala_version.dfy ===
/** The mapping from a requested Scala version to the key naming its pinned version. */
module ScalaVersion {
  import opened Wrappers
  import opened JavaString
  import opened Errors

  /** The four Scala binary-version buckets a Scalafix release is published for. */
  datatype Key = Scala212 | Scala213 | Scala3LTS | Scala3Next

  /** Name of the property holding the pinned Scala version of a bucket. It never collides
      with the fixed `scalafixVersion` property. */
  function KeyName(k: Key): (name: string)
    ensures name != ScalafixVersionKey
  {
    match k
    case Scala212 => "scala212"
    case Scala213 => "scala213"
    case Scala3LTS => "scala3LTS"
    case Scala3Next => "scala3Next"
  }

  /** Distinct buckets are read from distinct properties. */
  lemma KeyNameInjective(k1: Key, k2: Key)
    requires KeyName(k1) == KeyName(k2)
    ensures k1 == k2
  {
  }

  /** The prefix test selecting the Scala 3 long-term-support bucket. */
  predicate LtsPrefixed(v: string) {
    StartsWith(v, "3.0") || StartsWith(v, "3.1") || StartsWith(v, "3.2") || StartsWith(v, "3.3")
  }

  /** First-match-wins prefix dispatch; a string matching no rule is refused and the
      refusal carries the string as given. */
  function Resolve(requested: string): (r: Result<Key, Error>)
    ensures r.Err? ==> r.error == Unsupported(requested)
    ensures r.Ok? <==>
      StartsWith(requested, "2.12") || StartsWith(requested, "2.13") || StartsWith(requested, "3")
    ensures r == Ok(Scala3Next) ==> !LtsPrefixed(requested)
  {
    if StartsWith(requested, "2.12") then Ok(Scala212)
    else if StartsWith(requested, "2.13") then Ok(Scala213)
    else if LtsPrefixed(requested) then
      Ok(Scala3LTS)
    else if StartsWith(requested, "3") then Ok(Scala3Next)
    else Err(Unsupported(requested))
  }

  /** The dispatch restated on the characters of the requested string, with no prefix
      tests: each bucket, and the refusal, is exactly one shape of leading characters.
      Since the tests are literal prefixes, "3.10.0" falls in the LTS bucket and "30" in
      the Next bucket. */
  lemma ResolveByCharacters(v: string)
    ensures Resolve(v) == Ok(Scala212) <==>
      |v| >= 4 && v[0] == '2' && v[1] == '.' && v[2] == '1' && v[3] == '2'
    ensures Resolve(v) == Ok(Scala213) <==>
      |v| >= 4 && v[0] == '2' && v[1] == '.' && v[2] == '1' && v[3] == '3'
    ensures Resolve(v) == Ok(Scala3LTS) <==>
      |v| >= 3 && v[0] == '3' && v[1] == '.' && '0' <= v[2] <= '3'
    ensures Resolve(v) == Ok(Scala3Next) <==>
      |v| >= 1 && v[0] == '3' && !(|v| >= 3 && v[1] == '.' && '0' <= v[2] <= '3')
    ensures Resolve(v).Err? <==>
      |v| == 0 || (v[0] != '3' && !(|v| >= 4 && v[0] == '2' && v[1] == '.' && v[2] == '1' && '2' <= v[3] <= '3'))
  {
  }

  /** Resolutions of typical requests, including the literal-prefix edge cases. */
  lemma ResolveExamples()
    ensures Resolve("2.12.20") == Ok(Scala212)
    ensures Resolve("2.13.15") == Ok(Scala213)
    ensures Resolve("3.3.4") == Ok(Scala3LTS)
    ensures Resolve("3.10.0") == Ok(Scala3LTS)
    ensures Resolve("3.5.0") == Ok(Scala3Next)
    ensures Resolve("30") == Ok(Scala3Next)
    ensures Resolve("2.11") == Err(Unsupported("2.11"))
    ensures Resolve("") == Err(Unsupported(""))
  {
    ResolveByCharacters("2.12.20");
    ResolveByCharacters("2.13.15");
    ResolveByCharacters("3.3.4");
    ResolveByCharacters("3.10.0");
    ResolveByCharacters("3.5.0");
    ResolveByCharacters("30");
    ResolveByCharacters("2.11");
    ResolveByCharacters("");
  }
}

=== FILE: wrappers.dfy ===
/** Failure-carrying datatypes shared by the model. */
module Wrappers {

  /** A value that may be absent; stands in for a Java reference that may be `null`. */
  datatype Option<+T> = None | Some(value: T)

  /** Either a value or the error that replaced it; stands in for a thrown exception. */
  datatype Result<+T, +E> = Ok(value: T) | Err(error: E)
}
